=== FILE: README.md ===
# Session inactivity timeout, credential store and todo list — a Dafny model

This project models the client-side core of a task-management web client.

- The **credential and preference store** of the authentication service. It holds the `token` and `refreshToken` cookies and the `user`, `staySignedIn` and `inactivityTimeout` keys. Its operations are login, current-user lookup, token refresh, logout, `getToken` and `isAuthenticated`.
- The **inactivity scheduler** of the authentication context. This is the idle timer, the 60-second warning countdown, and the facade operations that re-arm or cancel them: activity, "Stay Logged In", login, logout, timeout update, the profile page's save and session restore.
- The **profile page's settings**: loading the form, the numeric field's fallback, the presets and the range-checked save.
- The **dashboard's todo list**: fetch, add, toggle, delete, edit/save/cancel, the filter tabs and the counters.

Timers become discrete events. `IdleFired` is the idle timer's callback. `Tick` is one run of the one-second countdown interval. Every remote call is an input `Response<T>`: `Ok(body)`, or `Fail(message)`, where `""` means the server sent no message. The environment's default timeout is a parameter `env: Option<int>`.

Modules:

- `Wrappers`: Option, Result, Response.
- `AuthStore` (`lib/auth.ts`).
- `Scheduler`: the scheduler's state, events, handlers and `Step`/`Run` (`contexts/AuthContext.tsx`).
- `SchedulerProofs`: multi-event properties.
- `Rendering`: the scheduler as React actually re-runs its listener effect (see Findings).
- `Profile` (`app/profile/page.tsx`).
- `Text`: JavaScript `trim`.
- `TodoList`: pure list operations.
- `Dashboard` (`app/dashboard/page.tsx`).

The scheduler state is a record. It holds the user, the warning flag, the displayed countdown, three timer slots and the store. The `warning` slot is kept as a slot that is never filled, as in the source. `Scheduler.Wf` is the timer discipline:

- at most one of the idle timer and the countdown is live;
- the warning shows exactly while the countdown runs;
- the displayed count is the live count, between 1 and 60.

`Scheduler.PhaseOf` reads off the phase `LoggedOut | Idle | Armed(ms) | Warning(n)`.

Behaviours of the code worth knowing:

- `updateInactivityTimeout` does no range check. Only the profile page's save guards [1, 60].
- Logout removes the `staySignedIn` and `inactivityTimeout` preferences along with the credentials.
- The profile page's save handler writes the `staySignedIn` flag after `updateInactivityTimeout` has already re-armed, so the handler alone leaves a running idle timer armed when "Stay Signed In" is ticked. Through the page, the Save button is reached by a click (app/profile/page.tsx:184), and that click also reaches the document `click` listener (contexts/AuthContext.tsx:144-147) after the handler. The listener re-arms under the new flag and cancels the timer. `Profile.StaySignedInAppliesAtNextRearm` states both halves: the handler's result, then the activity event.
- Besides login and logout, only the profile page's save writes the flag, and it does so without ending the session. A save with the box unticked removes the flag, so a session that stays signed in can start timing out again without a new login (`SchedulerProofs.UntickedSaveWakes`).
- Outbound API calls do not count as activity, although the profile page's help text says they reset the timer (app/profile/page.tsx:199). Only the document listeners re-arm.
- The last tick calls logout directly; nothing sits between the countdown and the logged-out state.

## Model

| member | source | states |
|---|---|---|
| AuthStore.ErrorMessage | lib/auth.ts:50-51 | a failed call rethrows the server's message, or exactly the fallback when there is none; never an empty message |
| AuthStore.GetToken | lib/auth.ts:116-118 | the stored token cookie, as stored; absent exactly when the cookie is |
| AuthStore.IsAuthenticated | lib/auth.ts:120-122 | true iff the token cookie is present and non-empty |
| AuthStore.RequestedExpiry | lib/auth.ts:35-38 | login sends the given `expiresInMins`, or 60 when it is absent or 0; never 0 |
| AuthStore.Login | lib/auth.ts:33-53 | on success stores token, refresh token and user, leaves both preferences alone, and is authenticated iff the token is non-empty; on failure writes nothing and rethrows exactly the server's message, or "Login failed" when there is none |
| AuthStore.GetCurrentUser | lib/auth.ts:71-86 | without a non-empty token: no request and null; with one: a bearer request with exactly the stored token; a user comes back iff the request succeeds |
| AuthStore.RefreshToken | lib/auth.ts:88-105 | without a refresh token: no request, null, store unchanged; on success only the `token` cookie changes, to the new value; on failure null and store unchanged |
| AuthStore.Logout | lib/auth.ts:107-112 | removes both cookies and all three keys, preferences included, so the session is no longer authenticated |
| AuthStore.LogoutIdempotent | lib/auth.ts:107-112 | logging out twice equals logging out once, and the result is the empty store whatever was stored |
| AuthStore.LoginThenLogout | lib/auth.ts:42-47 | logout after any login leaves the empty, unauthenticated store |
| Scheduler.Mount | contexts/AuthContext.tsx:33-36 | the provider mounts with no user, no warning, a count of 60 and no timers, over the store as found |
| SchedulerProofs.MountWf | contexts/AuthContext.tsx:33-36 | the mounted provider is logged out and within the timer discipline, and every run of events from it stays within it |
| Scheduler.GetInactivityTimeout | contexts/AuthContext.tsx:44-47 | the stored minutes when present, else the environment default, else 10 |
| Scheduler.Reset | contexts/AuthContext.tsx:56-101 | re-arm cancels every timer, hides the warning, sets the count to 60 and keeps user and store; it arms an idle timer iff the token is non-empty and the flag is not exactly "true", of length minutes*60*1000 |
| Scheduler.SignOut | contexts/AuthContext.tsx:204-209 | logout from any state: no user, no warning, no timers, empty unauthenticated store |
| Scheduler.OnActivity | contexts/AuthContext.tsx:104-112 | activity for a signed-in user is exactly a re-arm, whether or not a warning shows; with no user it does nothing |
| Scheduler.OnIdleFired | contexts/AuthContext.tsx:81-87 | a pending idle timer firing shows the warning with count 60 and starts the countdown; with none pending nothing changes |
| Scheduler.OnTick | contexts/AuthContext.tsx:88-99 | a tick takes exactly one off the count; when it reaches 0 the interval stops and logout runs |
| Scheduler.StayLoggedIn | contexts/AuthContext.tsx:211-218 | "Stay Logged In" during a warning is exactly a re-arm |
| Scheduler.SignIn | contexts/AuthContext.tsx:170-191 | requests 43200 minutes when staying signed in, else 60; on success sets the user and sets or removes the flag to match, keeps the timeout, and arms an idle timer iff not staying signed in and the token is non-empty, landing on the full-length `ArmTarget` with no countdown; a failure changes nothing and rethrows exactly the service's error: the server's message, or "Login failed" |
| Scheduler.SaveSettings | app/profile/page.tsx:26-38 | an out-of-range timeout changes nothing; otherwise the timeout is persisted with the timers `updateInactivityTimeout` leaves, under the old flag, and then the flag is "true" iff ticked, else removed; credentials and user untouched |
| Scheduler.UpdateInactivityTimeout | contexts/AuthContext.tsx:50-53 | persists any minutes, unchecked, and re-arms at once with a timer of exactly minutes*60*1000 when one is armed |
| Scheduler.InitAuth | contexts/AuthContext.tsx:115-138 | restores only with a cached user and a token; takes the fresh profile on success and keeps the cached one on failure; arms unless staying signed in, landing on the full-length `ArmTarget` of minutes*60*1000 ms with no countdown |
| Scheduler.Step | contexts/AuthContext.tsx:56-112 | every event preserves the timer discipline `Wf` |
| Scheduler.Run | contexts/AuthContext.tsx:56-112 | every event sequence preserves the timer discipline `Wf` |
| SchedulerProofs.RunAppend | contexts/AuthContext.tsx:81-99 | running one event sequence after another is running their concatenation, so the idle firing and the ticks that follow can be reasoned about separately |
| SchedulerProofs.CountdownRuns | contexts/AuthContext.tsx:86-91 | fewer than `n` ticks from a count of `n` only lower the count, one per tick |
| SchedulerProofs.CountdownExpires | contexts/AuthContext.tsx:88-99 | a count of `n` logs out after exactly `n` ticks |
| SchedulerProofs.AutoLogoutAfterSixtyTicks | contexts/AuthContext.tsx:81-100 | after the idle timer fires, 59 ticks leave the warning at 1 for the same user; the 60th logs out and empties the store |
| SchedulerProofs.ActivityRestartsFromScratch | contexts/AuthContext.tsx:104-112 | activity's result depends only on user and store, never on a countdown in progress; it lands on the full-length timer the policy asks for; "Stay Logged In" does the same |
| SchedulerProofs.ResetIdempotent | contexts/AuthContext.tsx:56-101 | re-arming twice equals re-arming once |
| SchedulerProofs.LogoutIdempotent | contexts/AuthContext.tsx:204-209 | logging out twice equals logging out once, and ends logged out |
| SchedulerProofs.PhaseRefinement | contexts/AuthContext.tsx:56-112 | for a signed-in user, activity, idle firing, tick, extend and logout move the phase exactly as the phase machine `NextPhase` says |
| SchedulerProofs.QuietStep | contexts/AuthContext.tsx:72-76 | with no timer and no re-arm possible, every event keeps it that way except a login or an accepted save with "Stay Signed In" unticked |
| SchedulerProofs.NoWarningWithoutLogin | contexts/AuthContext.tsx:72-76 | from a quiet state, no warning shows before a login or a save that clears the flag |
| SchedulerProofs.StaySignedInNeverWarns | contexts/AuthContext.tsx:179-183 | after a successful stay-signed-in login, no warning appears before the next login or a profile save with the box unticked |
| SchedulerProofs.UntickedSaveWakes | app/profile/page.tsx:36-38 | after such a login with a non-empty token, an accepted save with the box unticked removes the flag, and activity then an idle firing show the warning to the same user |
| Rendering.Commit | contexts/AuthContext.tsx:141-168 | when neither the user nor the warning flag changed, the commit changes nothing; otherwise, for a signed-in user, it re-arms; when the step leaves no user, the user stays absent and the store as the step left it, the timers are cleared if a user was signed in before, and with no user before nothing changes |
| Rendering.StepAsWritten | contexts/AuthContext.tsx:141-168 | a step followed by the effect's commit preserves the timer discipline |
| Rendering.RunAsWritten | contexts/AuthContext.tsx:141-168 | runs of such steps preserve the timer discipline |
| Rendering.WarningDismissedAsWritten | contexts/AuthContext.tsx:141-168 | as written, the idle timer firing for a signed-in user ends in a plain re-arm, with no warning and no countdown |
| Rendering.NeverLoggedOutAsWritten | contexts/AuthContext.tsx:141-168 | as written, no run of idle firings and ticks ever logs a signed-in user out |
| Rendering.AutoLogoutLostAsWritten | contexts/AuthContext.tsx:141-168 | on an armed session followed by the idle firing and 60 ticks, the intended scheduler logs out while the code as written does not |
| Profile.InitialSettings | app/profile/page.tsx:14-15 | the form starts in range, unchecked |
| Profile.Presets | app/profile/page.tsx:43 | four presets, all in [1, 60], including the initial default |
| Profile.LoadSettings | app/profile/page.tsx:17-24 | the checkbox is ticked iff the flag is exactly "true", in which case no timer would be armed; the field shows the stored minutes, or with none stored the environment default, else 10 |
| Profile.TimeoutField | app/profile/page.tsx:168 | unparsable text and 0 become 10; every other integer, negatives included, passes through |
| Profile.SaveSettings | app/profile/page.tsx:26-41 | outside [1, 60] the save is refused and nothing is written; inside, the timeout is applied through `updateInactivityTimeout` and the flag is stored as "true" iff ticked, else removed; credentials and user untouched; the resulting state is exactly the scheduler's `Save` event |
| Profile.SaveThenLoad | app/profile/page.tsx:17-38 | loading after a successful save shows exactly the saved form |
| Profile.FieldThenSave | app/profile/page.tsx:26-30 | after the field's fallback, a save is refused iff the text parsed to a non-zero integer outside [1, 60]; junk and 0 save as 10 |
| Profile.StaySignedInAppliesAtNextRearm | app/profile/page.tsx:32-38 | the save handler alone, with the box ticked, leaves a running idle timer armed; the activity event that follows (on the page, the Save click itself reaching the document listener) leaves no timer |
| Text.TrimStart | app/dashboard/page.tsx:40 | drops exactly a leading run of whitespace |
| Text.TrimEnd | app/dashboard/page.tsx:40 | drops exactly a trailing run of whitespace |
| Text.BlankIffAllWhitespace | app/dashboard/page.tsx:40 | `!s.trim()` holds iff every character is whitespace |
| TodoList.Select | app/dashboard/page.tsx:96-100 | filtering keeps exactly the accepted elements of the list |
| TodoList.SelectAppend | app/dashboard/page.tsx:96-100 | filtering distributes over concatenation, so order is preserved |
| TodoList.SelectKeepsAll | app/dashboard/page.tsx:99 | a filter that accepts everything returns the list unchanged |
| TodoList.SelectSplits | app/dashboard/page.tsx:102-106 | a filter and its negation split the list's length between them |
| TodoList.FilterTodos | app/dashboard/page.tsx:96-100 | a tab shows exactly the todos it accepts |
| TodoList.FilterTabs | app/dashboard/page.tsx:96-100 | "all" is the whole list; "active" and "completed" hold only open and only done todos, together cover it, and keep list order |
| TodoList.ComputeStats | app/dashboard/page.tsx:102-106 | total = active + completed, each count being the size of its tab |
| TodoList.ReplaceById | app/dashboard/page.tsx:55 | same length; entries with the id become the update, all others unchanged |
| TodoList.WithId | app/dashboard/page.tsx:65 | the entries carrying the id, and only those |
| TodoList.RemoveById | app/dashboard/page.tsx:65 | no entry with the id remains; every other entry stays; the length drops by exactly the number of entries with the id |
| TodoList.RemoveByIdKeepsOrder | app/dashboard/page.tsx:65 | removal distributes over concatenation, so the kept entries stay in their original order |
| TodoList.RemoveByIdShrinks | app/dashboard/page.tsx:65 | removing an absent id changes nothing, a present one shortens the list, and removal is idempotent |
| Dashboard.FetchTodos | app/dashboard/page.tsx:24-36 | no user, no request; on success the list is replaced; a failure keeps it |
| Dashboard.AddTodo | app/dashboard/page.tsx:38-50 | whitespace-only text or no user is a no-op with no request; success prepends the created todo and clears the input; failure changes nothing |
| Dashboard.ToggleTodo | app/dashboard/page.tsx:52-60 | requests the opposite of the given state; success replaces only entries with the id, length unchanged; failure changes nothing |
| Dashboard.DeleteTodo | app/dashboard/page.tsx:62-70 | success leaves the list filtered by id, the other entries in order and the length down by the number removed; failure changes nothing |
| Dashboard.EditTodo | app/dashboard/page.tsx:72-75 | starts editing the id with the given text, list untouched |
| Dashboard.SaveEdit | app/dashboard/page.tsx:77-89 | blank text or nothing edited is a no-op; success replaces the edited id and clears editing; failure changes nothing |
| Dashboard.CancelEdit | app/dashboard/page.tsx:91-94 | clears editing without touching the list |
| Dashboard.EditThenCancel | app/dashboard/page.tsx:72-94 | cancel undoes an edit started from a closed editor, and is idempotent |
| Dashboard.Visible | app/dashboard/page.tsx:96-100 | the shown list holds exactly the selected tab's todos, and is the whole list under "all" |
| Dashboard.AddUpdatesStats | app/dashboard/page.tsx:102-106 | adding an open todo raises total and active by one and leaves completed alone |

## Left out

- HTTP through axios: every call is an input `Response`. No request is made.
- `lib/todos.ts` is not part of this model. Each of its functions only wraps one HTTP call with a bearer header.
- Real time. Timer firing and interval ticks are events. The idle length `minutes*60*1000` is kept only as a computed value. Host behaviour for out-of-range delays is not modelled: a negative delay, or one above 2^31-1 ms, fires at once. Two routes can reach it. `updateInactivityTimeout` accepts any minutes, though its only caller guards [1, 60] (app/profile/page.tsx:27). The environment default (contexts/AuthContext.tsx:46) reaches the idle timer with no guard at all.
- Registration and removal of the six document listeners. They are one `Activity` event, delivered only while a user is signed in. The React effect lifecycle is modelled only in `Rendering`.
- Toasts, `router.push`, the `window.location` redirect in logout, JSX, and the `loading` flag.
- `signup` (lib/auth.ts:55-69, contexts/AuthContext.tsx:193-202). It only forwards a registration and touches neither the store nor the scheduler.
- Cookie expiry days, `JSON.parse` of the cached user, and `parseInt` of stored or environment strings (including NaN). The stored timeout is an `Option<int>` and the environment default an `Option<int>` parameter.
- `app/page.tsx` and `app/login/page.tsx`: a redirect check, the form schema and markup.
- Several tabs sharing one store.
- Overlapping asynchronous calls. Each handler is one atomic step at the moment its response arrives. In the code, the dashboard handlers build the new list from the `todos` captured when they were called (app/dashboard/page.tsx:44, 55, 65, 82), so when two of these calls overlap, the later response overwrites the earlier one's change. The model keeps both changes. Likewise `initAuth` sets the cached user before its request and the fresh one only after it (contexts/AuthContext.tsx:121-126); the model collapses the two into one step.
- Scheduler.Step: states only the timer discipline. What each event does is stated by the handler it dispatches to (`OnActivity`, `OnTick`, ...).
- Text.TrimStart: characters are Unicode scalar values, while JavaScript strings are UTF-16 units. Every character `trim` removes lies in the Basic Multilingual Plane, so the blank check is unaffected.

## Findings

| source | as written | input that shows it | evidently intended | confidence | as-written member | corrected member |
|---|---|---|---|---|---|---|
| contexts/AuthContext.tsx:104-168 | `handleUserActivity` depends on `showWarning`, and the listener effect depends on `handleUserActivity`. When the idle timer shows the warning, the effect's cleanup clears the countdown interval just started, and its body re-arms. | A signed-in, armed session; the idle timer fires; then 60 one-second ticks. | The warning stays up and counts down to a forced logout, as its text and the profile page promise. | not executed; medium-high (follows from React's dependency-change rule) | Rendering.AutoLogoutLostAsWritten | SchedulerProofs.AutoLogoutAfterSixtyTicks |

=== FILE: auth_store.dfy ===
/** The persisted credential and preference store of the authentication service:
    the `token` and `refreshToken` cookies and the `user`, `staySignedIn` and
    `inactivityTimeout` local-storage keys, with the service operations that
    read and write them. Every remote call is an input `Response`. */
module AuthStore {
  import opened Wrappers

  /** The profile returned by the identity API (the cached `user` key). */
  datatype User = User(
    id: int,
    username: string,
    email: string,
    firstName: string,
    lastName: string,
    gender: string,
    image: string,
    token: string,
    refreshToken: string)

  /** Everything the client persists; `None` means the cookie or key is absent. */
  datatype Store = Store(
    token: Option<string>,
    refreshToken: Option<string>,
    user: Option<User>,
    staySignedIn: Option<string>,
    inactivityTimeout: Option<int>)

  /** A store with nothing in it. */
  const Empty := Store(None, None, None, None, None)

  /** Token lifetime requested when the caller gives none (or gives 0). */
  const DefaultExpiryMins := 60

  /** The caller's login credentials; `expiresInMins` is optional. */
  datatype Credentials = Credentials(username: string, password: string, expiresInMins: Option<int>)

  /** The body actually posted to the login endpoint. */
  datatype LoginBody = LoginBody(username: string, password: string, expiresInMins: int)

  /** The body posted to the refresh endpoint. */
  datatype RefreshBody = RefreshBody(refreshToken: string, expiresInMins: int)

  datatype LoginOutcome = LoginOutcome(sent: LoginBody, result: Result<User, string>, store: Store)
  datatype CurrentUserOutcome = CurrentUserOutcome(bearer: Option<string>, user: Option<User>)
  datatype RefreshOutcome = RefreshOutcome(sent: Option<RefreshBody>, token: Option<string>, store: Store)

  /** JavaScript truthiness of an optional string: present and not "". */
  predicate Truthy(s: Option<string>) {
    s.Some? && s.value != ""
  }

  /** The stored token cookie, exactly as stored; absent after a logout. */
  function GetToken(s: Store): (t: Option<string>)
    ensures t == s.token
    ensures t.None? ==> s.token.None?
  {
    s.token
  }

  /** A session is authenticated when the token cookie holds a non-empty string:
      an absent cookie and an empty one both count as signed out. */
  function IsAuthenticated(s: Store): (b: bool)
    ensures b <==> GetToken(s).Some? && GetToken(s).value != ""
    ensures b ==> |GetToken(s).value| > 0
  {
    Truthy(GetToken(s))
  }

  /** The error message a failed call rethrows: the server's message, else `fallback`. */
  function ErrorMessage(message: string, fallback: string): (m: string)
    requires fallback != ""
    ensures m != ""
    ensures message != "" ==> m == message
    ensures message == "" ==> m == fallback
  {
    if message != "" then message else fallback
  }

  /** The expiry sent with a login request: the given value, or 60 when it is absent or 0. */
  function RequestedExpiry(expiresInMins: Option<int>): (m: int)
    ensures m != 0
    ensures expiresInMins.Some? && expiresInMins.value != 0 ==> m == expiresInMins.value
    ensures expiresInMins.None? || expiresInMins.value == 0 ==> m == DefaultExpiryMins
  {
    match expiresInMins
    case Some(v) => if v != 0 then v else DefaultExpiryMins
    case None => DefaultExpiryMins
  }

  /** What a failed login rethrows when the server sent no message. */
  const LoginFailed := "Login failed"

  /** `authService.login`: posts the credentials and, on success, stores both
      tokens and the user; a failed request writes nothing and rethrows. */
  function Login(s: Store, creds: Credentials, response: Response<User>): (r: LoginOutcome)
    ensures r.sent == LoginBody(creds.username, creds.password, RequestedExpiry(creds.expiresInMins))
    ensures response.Fail? ==> r.store == s && r.result.Failure? && r.result.error != ""
    ensures response.Fail? ==> r.result == Failure(ErrorMessage(response.message, LoginFailed))
    ensures response.Ok? ==>
      && r.result == Success(response.body)
      && GetToken(r.store) == Some(response.body.token)
      && r.store.refreshToken == Some(response.body.refreshToken)
      && r.store.user == Some(response.body)
      && r.store.staySignedIn == s.staySignedIn
      && r.store.inactivityTimeout == s.inactivityTimeout
    ensures response.Ok? ==> (IsAuthenticated(r.store) <==> response.body.token != "")
  {
    var sent := LoginBody(creds.username, creds.password, RequestedExpiry(creds.expiresInMins));
    match response
    case Fail(message) =>
      LoginOutcome(sent, Failure(ErrorMessage(message, LoginFailed)), s)
    case Ok(user) =>
      var stored := s.(token := Some(user.token), refreshToken := Some(user.refreshToken), user := Some(user));
      LoginOutcome(sent, Success(user), stored)
  }

  /** `authService.getCurrentUser`: no request at all without a token; any failed
      request yields null. It never writes the store. */
  function GetCurrentUser(s: Store, response: Response<User>): (r: CurrentUserOutcome)
    ensures !IsAuthenticated(s) ==> r.bearer.None? && r.user.None?
    ensures IsAuthenticated(s) ==> r.bearer == GetToken(s)
    ensures r.user.Some? <==> IsAuthenticated(s) && response.Ok?
    ensures r.user.Some? ==> r.user.value == response.body
  {
    if !IsAuthenticated(s) then CurrentUserOutcome(None, None)
    else match response
      case Ok(user) => CurrentUserOutcome(s.token, Some(user))
      case Fail(_) => CurrentUserOutcome(s.token, None)
  }

  /** `authService.refreshToken`: needs a stored refresh token; on success it
      overwrites the token cookie and nothing else. */
  function RefreshToken(s: Store, response: Response<string>): (r: RefreshOutcome)
    ensures !Truthy(s.refreshToken) ==> r.sent.None? && r.token.None? && r.store == s
    ensures Truthy(s.refreshToken) ==> r.sent == Some(RefreshBody(s.refreshToken.value, 60))
    ensures response.Fail? ==> r.token.None? && r.store == s
    ensures Truthy(s.refreshToken) && response.Ok? ==>
      && r.token == Some(response.body)
      && r.store == s.(token := Some(response.body))
      && GetToken(r.store) == Some(response.body)
  {
    if !Truthy(s.refreshToken) then RefreshOutcome(None, None, s)
    else
      var sent := Some(RefreshBody(s.refreshToken.value, 60));
      match response
      case Ok(token) => RefreshOutcome(sent, Some(token), s.(token := Some(token)))
      case Fail(_) => RefreshOutcome(sent, None, s)
  }

  /** `authService.logout`: removes both cookies and all three local-storage keys,
      preferences included. */
  function Logout(s: Store): (r: Store)
    ensures r.token.None? && r.refreshToken.None? && r.user.None?
    ensures r.staySignedIn.None? && r.inactivityTimeout.None?
    ensures !IsAuthenticated(r)
  {
    s.(token := None, refreshToken := None, user := None, staySignedIn := None, inactivityTimeout := None)
  }

  /** Logging out twice leaves the store as logging out once does, and the
      result does not depend on what was stored before. */
  lemma LogoutIdempotent(s: Store, t: Store)
    ensures Logout(Logout(s)) == Logout(s)
    ensures Logout(s) == Logout(t) == Empty
  {
  }

  /** Login followed by logout forgets everything the login stored. */
  lemma LoginThenLogout(s: Store, creds: Credentials, response: Response<User>)
    ensures Logout(Login(s, creds, response).store) == Empty
    ensures !IsAuthenticated(Logout(Login(s, creds, response).store))
  {
  }
}

=== FILE: dashboard.dfy ===
/** The dashboard's handlers: each issues at most one remote call (an input
    `Response`) and updates the screen's state from its answer. A failed call
    leaves the list as it was. */
module Dashboard {
  import opened Wrappers
  import AuthStore
  import Text
  import opened TodoList

  /** The screen's state: the list, the new-todo input, the item being edited and
      its text, and the selected tab. */
  datatype Board = Board(todos: seq<Todo>, newTodo: string, editingId: Option<int>, editText: string, filter: Filter)

  datatype Patch = SetCompleted(completed: bool) | SetText(text: string)

  /** The remote call a handler makes. */
  datatype Request =
    | FetchUserTodos(userId: int)
    | CreateTodo(text: string, userId: int)
    | UpdateTodo(id: int, patch: Patch)
    | DeleteTodo(id: int)

  datatype Handled = Handled(request: Option<Request>, board: Board)

  /** `fetchTodos`: with a user, load that user's list; a failure keeps the old one. */
  function FetchTodos(b: Board, user: Option<AuthStore.User>, response: Response<seq<Todo>>): (r: Handled)
    ensures user.None? ==> r == Handled(None, b)
    ensures user.Some? ==> r.request == Some(FetchUserTodos(user.value.id))
    ensures user.Some? && response.Ok? ==> r.board == b.(todos := response.body)
    ensures response.Fail? ==> r.board == b
  {
    if user.None? then Handled(None, b)
    else
      var request := Some(FetchUserTodos(user.value.id));
      match response
      case Ok(todos) => Handled(request, b.(todos := todos))
      case Fail(_) => Handled(request, b)
  }

  /** `handleAddTodo`: blank text or no user does nothing; otherwise create the
      todo (text as typed), put it first and clear the input. */
  function AddTodo(b: Board, user: Option<AuthStore.User>, response: Response<Todo>): (r: Handled)
    ensures Text.AllWhitespace(b.newTodo) || user.None? ==> r == Handled(None, b)
    ensures !Text.AllWhitespace(b.newTodo) && user.Some? ==>
      r.request == Some(CreateTodo(b.newTodo, user.value.id))
    ensures !Text.AllWhitespace(b.newTodo) && user.Some? && response.Ok? ==>
      && r.board.todos == [response.body] + b.todos
      && |r.board.todos| == |b.todos| + 1
      && r.board.newTodo == ""
      && r.board.editingId == b.editingId && r.board.editText == b.editText && r.board.filter == b.filter
    ensures response.Fail? ==> r.board == b
  {
    Text.BlankIffAllWhitespace(b.newTodo);
    if Text.IsBlank(b.newTodo) || user.None? then Handled(None, b)
    else
      var request := Some(CreateTodo(b.newTodo, user.value.id));
      match response
      case Ok(todo) => Handled(request, b.(todos := [todo] + b.todos, newTodo := ""))
      case Fail(_) => Handled(request, b)
  }

  /** `handleToggleTodo(id, completed)`: ask for the opposite of `completed` and put
      the server's answer in place of every todo with that id. */
  function ToggleTodo(b: Board, id: int, completed: bool, response: Response<Todo>): (r: Handled)
    ensures r.request == Some(UpdateTodo(id, SetCompleted(!completed)))
    ensures response.Ok? ==>
      && |r.board.todos| == |b.todos|
      && (forall i :: 0 <= i < |b.todos| && b.todos[i].id != id ==> r.board.todos[i] == b.todos[i])
      && (forall i :: 0 <= i < |b.todos| && b.todos[i].id == id ==> r.board.todos[i] == response.body)
      && r.board == b.(todos := r.board.todos)
    ensures response.Fail? ==> r.board == b
  {
    var request := Some(UpdateTodo(id, SetCompleted(!completed)));
    match response
    case Ok(updated) => Handled(request, b.(todos := ReplaceById(b.todos, id, updated)))
    case Fail(_) => Handled(request, b)
  }

  /** `handleDeleteTodo`: on success drop every todo with the id, keeping the rest. */
  function DeleteTodo(b: Board, id: int, response: Response<()>): (r: Handled)
    ensures r.request == Some(Request.DeleteTodo(id))
    ensures response.Ok? ==>
      && r.board.todos == RemoveById(b.todos, id)
      && |r.board.todos| == |b.todos| - |WithId(b.todos, id)|
      && (forall i :: 0 <= i < |r.board.todos| ==> r.board.todos[i].id != id)
      && (forall t :: t in b.todos && t.id != id ==> t in r.board.todos)
      && (forall t :: t in r.board.todos ==> t in b.todos)
      && r.board == b.(todos := r.board.todos)
    ensures response.Fail? ==> r.board == b
  {
    var request := Some(Request.DeleteTodo(id));
    match response
    case Ok(_) => Handled(request, b.(todos := RemoveById(b.todos, id)))
    case Fail(_) => Handled(request, b)
  }

  /** `handleEditTodo`: start editing a todo with its current text. */
  function EditTodo(b: Board, id: int, text: string): (r: Board)
    ensures r.editingId == Some(id) && r.editText == text
    ensures r.todos == b.todos && r.newTodo == b.newTodo && r.filter == b.filter
  {
    b.(editingId := Some(id), editText := text)
  }

  /** `handleSaveEdit`: nothing when the text is blank or nothing is being edited;
      otherwise send the new text and, on success, replace the todo and leave
      editing. A failure keeps both the list and the edit open. */
  function SaveEdit(b: Board, response: Response<Todo>): (r: Handled)
    ensures Text.AllWhitespace(b.editText) || b.editingId.None? ==> r == Handled(None, b)
    ensures !Text.AllWhitespace(b.editText) && b.editingId.Some? ==>
      && r.request == Some(UpdateTodo(b.editingId.value, SetText(b.editText)))
      && (response.Ok? ==>
            && r.board.editingId.None? && r.board.editText == ""
            && |r.board.todos| == |b.todos|
            && (forall i :: 0 <= i < |b.todos| ==>
                  r.board.todos[i] == (if b.todos[i].id == b.editingId.value then response.body else b.todos[i]))
            && r.board.newTodo == b.newTodo && r.board.filter == b.filter)
    ensures response.Fail? ==> r.board == b
  {
    Text.BlankIffAllWhitespace(b.editText);
    if Text.IsBlank(b.editText) || b.editingId.None? then Handled(None, b)
    else
      var id := b.editingId.value;
      var request := Some(UpdateTodo(id, SetText(b.editText)));
      match response
      case Ok(updated) =>
        Handled(request, b.(todos := ReplaceById(b.todos, id, updated), editingId := None, editText := ""))
      case Fail(_) => Handled(request, b)
  }

  /** `handleCancelEdit`: leave editing without touching the list. */
  function CancelEdit(b: Board): (r: Board)
    ensures r.editingId.None? && r.editText == ""
    ensures r.todos == b.todos && r.newTodo == b.newTodo && r.filter == b.filter
  {
    b.(editingId := None, editText := "")
  }

  /** Cancelling after starting an edit returns to the state before it, when no
      edit was open; cancelling twice is cancelling once. */
  lemma EditThenCancel(b: Board, id: int, text: string)
    requires b.editingId.None? && b.editText == ""
    ensures CancelEdit(EditTodo(b, id, text)) == b
    ensures CancelEdit(CancelEdit(b)) == CancelEdit(b)
  {
  }

  /** The list shown under the selected tab, with the counters above it. */
  function Visible(b: Board): (r: seq<Todo>)
    ensures forall i :: 0 <= i < |r| ==> Shows(b.filter, r[i]) && r[i] in b.todos
    ensures forall t :: t in b.todos && Shows(b.filter, t) ==> t in r
    ensures b.filter.All? ==> r == b.todos
  {
    FilterTabs(b.todos, []);
    FilterTodos(b.todos, b.filter)
  }

  /** A successful add grows the total and the open count by one when the new todo
      is open; the totals always add up. */
  lemma AddUpdatesStats(b: Board, user: AuthStore.User, todo: Todo)
    requires !Text.AllWhitespace(b.newTodo) && !todo.completed
    ensures var after := AddTodo(b, Some(user), Ok(todo)).board;
      && ComputeStats(after.todos).total == ComputeStats(b.todos).total + 1
      && ComputeStats(after.todos).active == ComputeStats(b.todos).active + 1
      && ComputeStats(after.todos).completed == ComputeStats(b.todos).completed
  {
    FilterTabs([todo], b.todos);
    assert FilterTodos([todo], Active) == [todo];
    assert FilterTodos([todo], Completed) == [];
  }
}

=== FILE: profile.dfy ===
/** The profile page's security settings: loading the stored policy into the form,
    the numeric field's parse fallback, the presets, and the range-checked save. */
module Profile {
  import opened Wrappers
  import AuthStore
  import Scheduler

  /** What the numeric field falls back to when its text does not parse (or parses to 0). */
  const FallbackTimeoutMinutes := 10

  /** The form: the timeout field and the "Stay Signed In" checkbox. */
  datatype Settings = Settings(timeoutMinutes: int, staySignedIn: bool)

  /** The form before the stored settings are loaded. */
  function InitialSettings(): (f: Settings)
    ensures Scheduler.InRange(f.timeoutMinutes) && !f.staySignedIn
  {
    Settings(10, false)
  }

  /** The preset buttons, all of which the save accepts. */
  function Presets(): (ps: seq<int>)
    ensures |ps| == 4
    ensures forall i :: 0 <= i < |ps| ==> Scheduler.InRange(ps[i])
    ensures InitialSettings().timeoutMinutes in ps
  {
    [5, 10, 15, 30]
  }

  /** Loading the form: the effective timeout and whether the flag is exactly "true". */
  function LoadSettings(s: AuthStore.Store, env: Option<int>): (f: Settings)
    ensures f.staySignedIn <==> Scheduler.StaysSignedIn(s)
    ensures f.staySignedIn ==> !Scheduler.ArmsIdleTimer(s)
    ensures s.inactivityTimeout.Some? ==> f.timeoutMinutes == s.inactivityTimeout.value
    ensures s.inactivityTimeout.None? ==> f.timeoutMinutes == env.GetOr(Scheduler.DefaultTimeoutMinutes)
  {
    Settings(Scheduler.GetInactivityTimeout(s, env), s.staySignedIn == Some("true"))
  }

  /** The numeric field's `parseInt(text) || 10`: `parsed` is the parse, `None`
      when the text is not a number. Zero and unparsable text become 10; every
      other integer, negatives included, passes through. */
  function TimeoutField(parsed: Option<int>): (m: int)
    ensures m != 0
    ensures parsed.Some? && parsed.value != 0 ==> m == parsed.value
    ensures parsed.None? || parsed.value == 0 ==> m == FallbackTimeoutMinutes
  {
    match parsed
    case Some(v) => if v != 0 then v else FallbackTimeoutMinutes
    case None => FallbackTimeoutMinutes
  }

  datatype SaveOutcome = Saved | Rejected(message: string)
  datatype SaveResult = SaveResult(outcome: SaveOutcome, state: Scheduler.Auth)

  /** `handleSaveSettings`: an out-of-range timeout is refused with a message and
      nothing is written; otherwise the scheduler applies the save (the timeout
      through `updateInactivityTimeout`, then the flag). */
  function SaveSettings(a: Scheduler.Auth, form: Settings, env: Option<int>): (r: SaveResult)
    ensures !Scheduler.InRange(form.timeoutMinutes) ==> r.outcome.Rejected? && r.state == a
    ensures Scheduler.InRange(form.timeoutMinutes) ==>
      && r.outcome == Saved
      && r.state.store.inactivityTimeout == Some(form.timeoutMinutes)
      && (form.staySignedIn ==> r.state.store.staySignedIn == Some("true"))
      && (!form.staySignedIn ==> r.state.store.staySignedIn.None?)
      && r.state.store.token == a.store.token
      && r.state.store.refreshToken == a.store.refreshToken
      && r.state.store.user == a.store.user
      && r.state.user == a.user
    ensures r.state == Scheduler.Step(a, Scheduler.Save(form.timeoutMinutes, form.staySignedIn), env)
    ensures Scheduler.InRange(form.timeoutMinutes) ==>
      r.state.timers == Scheduler.UpdateInactivityTimeout(a, form.timeoutMinutes, env).timers
  {
    var state := Scheduler.SaveSettings(a, form.timeoutMinutes, form.staySignedIn, env);
    if form.timeoutMinutes < Scheduler.MinTimeoutMinutes || form.timeoutMinutes > Scheduler.MaxTimeoutMinutes then
      SaveResult(Rejected("Timeout must be between 1 and 60 minutes"), state)
    else SaveResult(Saved, state)
  }

  /** Reloading the page after a successful save shows exactly what was saved. */
  lemma SaveThenLoad(a: Scheduler.Auth, form: Settings, env: Option<int>, env': Option<int>)
    requires Scheduler.InRange(form.timeoutMinutes)
    ensures LoadSettings(SaveSettings(a, form, env).state.store, env') == form
  {
  }

  /** Typing into the field and saving: the save is refused exactly when the text
      parses to a non-zero integer outside [1, 60]; zero and junk save as 10. */
  lemma FieldThenSave(a: Scheduler.Auth, parsed: Option<int>, stay: bool, env: Option<int>)
    ensures SaveSettings(a, Settings(TimeoutField(parsed), stay), env).outcome.Rejected?
        <==> parsed.Some? && parsed.value != 0 && !Scheduler.InRange(parsed.value)
    ensures parsed.None? || parsed.value == 0 ==>
      SaveSettings(a, Settings(TimeoutField(parsed), stay), env).state.store.inactivityTimeout
        == Some(FallbackTimeoutMinutes)
  {
  }

  /** The flag is written after the re-arm, so the handler alone, with "Stay Signed
      In" ticked, leaves an already-armed idle timer running. The flag takes effect
      at the next activity, which leaves no timer at all; on the page that is the
      Save button's own click, which reaches the document listener after the handler. */
  lemma StaySignedInAppliesAtNextRearm(a: Scheduler.Auth, minutes: int, env: Option<int>)
    requires Scheduler.InRange(minutes) && a.user.Some? && Scheduler.ArmsIdleTimer(a.store)
    ensures var saved := SaveSettings(a, Settings(minutes, true), env).state;
      && saved.timers.idle == Some(minutes * 60 * 1000)
      && Scheduler.Step(saved, Scheduler.Activity, env).timers == Scheduler.NoTimers
  {
  }
}

=== FILE: rendering.dfy ===
/** The scheduler as the provider actually wires it into React. The listener
    effect lists `user` and `handleUserActivity` among its dependencies, and
    `handleUserActivity` is rebuilt whenever `showWarning` changes. So every step
    that changes the user or the warning's visibility is followed by the effect's
    cleanup (which clears all three timers) and a fresh run of its body (which
    re-arms). When the idle timer fires, this clears the countdown it has just
    started, so the warning is dismissed at once and the forced logout never
    happens. `Scheduler.Step` is the intended behaviour. */
module Rendering {
  import opened Wrappers
  import AuthStore
  import opened Scheduler
  import SchedulerProofs

  /** The commit after a step from `before` to `after`: when a dependency changed,
      the previous run's cleanup (present only if a user was signed in) clears the
      timers, and the new run re-arms when a user is signed in. */
  function Commit(before: Auth, after: Auth, env: Option<int>): (r: Auth)
    ensures after.user == before.user && after.showWarning == before.showWarning ==> r == after
    ensures (after.user != before.user || after.showWarning != before.showWarning) && after.user.Some? ==>
      r == Reset(after, env)
    ensures after.user.None? ==>
      && r.user.None? && r.store == after.store
      && (before.user.Some? ==> r.timers == NoTimers)
      && (before.user.None? ==> r == after)
  {
    if after.user == before.user && after.showWarning == before.showWarning then after
    else
      var cleaned := if before.user.Some? then after.(timers := NoTimers) else after;
      if after.user.Some? then Reset(cleaned, env) else cleaned
  }

  /** One event as written: the step, then the effect's commit. */
  function StepAsWritten(a: Auth, e: Event, env: Option<int>): (r: Auth)
    ensures Wf(a) ==> Wf(r)
  {
    Commit(a, Step(a, e, env), env)
  }

  function RunAsWritten(a: Auth, es: seq<Event>, env: Option<int>): (r: Auth)
    ensures Wf(a) ==> Wf(r)
    decreases |es|
  {
    if es == [] then a else RunAsWritten(StepAsWritten(a, es[0], env), es[1..], env)
  }

  /** As written, the idle timer firing for a signed-in user only re-arms: the
      warning is hidden again and no countdown is left running. */
  lemma WarningDismissedAsWritten(a: Auth, env: Option<int>)
    requires Wf(a) && a.user.Some? && a.timers.idle.Some?
    ensures StepAsWritten(a, IdleFired, env) == Reset(a, env)
    ensures var r := StepAsWritten(a, IdleFired, env);
      !r.showWarning && r.timers.countdown.None? && r.user == a.user
  {
  }

  /** A signed-in user with no warning showing is never logged out, as written, by
      any run of idle-timer firings and ticks. */
  lemma {:induction false} NeverLoggedOutAsWritten(a: Auth, es: seq<Event>, env: Option<int>)
    requires Wf(a) && a.user.Some? && !a.showWarning
    requires forall i :: 0 <= i < |es| ==> es[i].IdleFired? || es[i].Tick?
    ensures var r := RunAsWritten(a, es, env);
      r.user == a.user && r.store == a.store && !r.showWarning
    decreases |es|
  {
    if es != [] {
      var next := StepAsWritten(a, es[0], env);
      assert next.user == a.user && next.store == a.store && !next.showWarning && Wf(next);
      NeverLoggedOutAsWritten(next, es[1..], env);
    }
  }

  /** The discrepancy on one input: an armed session, the idle timer fires, then 60
      ticks. The intended scheduler logs out; the code as written keeps the user
      signed in with no warning showing. */
  lemma AutoLogoutLostAsWritten(a: Auth, env: Option<int>)
    requires Wf(a) && a.user.Some? && a.timers.idle.Some?
    ensures var es := [IdleFired] + Repeat(Tick, WarningSeconds);
      && Run(a, es, env).user.None?
      && RunAsWritten(a, es, env).user == a.user
      && !RunAsWritten(a, es, env).showWarning
  {
    var es := [IdleFired] + Repeat(Tick, WarningSeconds);
    SchedulerProofs.AutoLogoutAfterSixtyTicks(a, env);
    assert forall i :: 0 <= i < |es| ==> es[i].IdleFired? || es[i].Tick?;
    NeverLoggedOutAsWritten(a, es, env);
  }
}

=== FILE: scheduler.dfy ===
/** The inactivity scheduler of the authentication context: the idle timer, the
    60-second warning countdown and the session facade operations that re-arm or
    cancel them. Timers are slots holding what a pending timer will do; firing
    is a discrete event (`IdleFired`, `Tick`) instead of elapsed time. */
module Scheduler {
  import opened Wrappers
  import AuthStore

  /** Seconds shown on the warning before the forced logout. */
  const WarningSeconds := 60

  /** Inactivity timeout, in minutes, when neither storage nor the environment sets one. */
  const DefaultTimeoutMinutes := 10

  /** Bounds of the timeout the profile page's save accepts, in minutes. */
  const MinTimeoutMinutes := 1
  const MaxTimeoutMinutes := 60

  predicate InRange(minutes: int) {
    MinTimeoutMinutes <= minutes <= MaxTimeoutMinutes
  }

  /** Token lifetimes requested at login, in minutes. */
  const StaySignedInExpiryMins := 43200
  const SessionExpiryMins := 60

  /** The three timer handles. `idle` holds the delay (ms) of a pending idle timer,
      `countdown` the private count of a live one-second interval; `warning` is
      declared and cleared by the source but never assigned. */
  datatype Timers = Timers(idle: Option<int>, warning: Option<int>, countdown: Option<int>)

  const NoTimers := Timers(None, None, None)

  /** The provider's state: the signed-in user, the warning modal and its displayed
      countdown, the timer handles, and the persisted store. */
  datatype Auth = Auth(
    user: Option<AuthStore.User>,
    showWarning: bool,
    countdown: int,
    timers: Timers,
    store: AuthStore.Store)

  /** The provider as first mounted over an existing store: no user, no warning,
      a count of 60 and no timers. */
  function Mount(store: AuthStore.Store): (a: Auth)
    ensures a.user.None? && !a.showWarning && a.countdown == WarningSeconds
    ensures a.timers == NoTimers && a.store == store
  {
    Auth(None, false, WarningSeconds, NoTimers, store)
  }

  /** The scheduler's phase, read off the timer handles. */
  datatype Phase = LoggedOut | Idle | Armed(delayMs: int) | Warning(count: int)

  datatype Event =
    | Activity
    | IdleFired
    | Tick
    | Extend
    | Logout
    | Login(username: string, password: string, staySignedIn: bool, response: Response<AuthStore.User>)
    | UpdateTimeout(minutes: int)
    | Save(minutes: int, staySignedIn: bool)
    | Restore(response: Response<AuthStore.User>)

  /** Timer discipline: the warning slot stays empty, at most one of the idle timer
      and the countdown is live, the modal is shown exactly while the countdown
      runs, and the displayed count is the live count, between 1 and 60. */
  predicate Wf(a: Auth) {
    && a.timers.warning.None?
    && !(a.timers.idle.Some? && a.timers.countdown.Some?)
    && (a.showWarning <==> a.timers.countdown.Some?)
    && (a.timers.countdown.Some? ==>
          0 < a.timers.countdown.value <= WarningSeconds && a.countdown == a.timers.countdown.value)
  }

  function PhaseOf(a: Auth): Phase {
    if a.timers.countdown.Some? then Warning(a.timers.countdown.value)
    else if a.timers.idle.Some? then Armed(a.timers.idle.value)
    else if a.user.None? then LoggedOut
    else Idle
  }

  /** `getInactivityTimeout`: the stored minutes, else the environment default, else 10. */
  function GetInactivityTimeout(s: AuthStore.Store, env: Option<int>): (m: int)
    ensures s.inactivityTimeout.Some? ==> m == s.inactivityTimeout.value
    ensures s.inactivityTimeout.None? ==> m == (if env.Some? then env.value else DefaultTimeoutMinutes)
  {
    s.inactivityTimeout.GetOr(env.GetOr(DefaultTimeoutMinutes))
  }

  function IdleDelayMs(minutes: int): int {
    minutes * 60 * 1000
  }

  /** The stored flag disables the idle timer only when it is exactly "true". */
  predicate StaysSignedIn(s: AuthStore.Store) {
    s.staySignedIn == Some("true")
  }

  /** A re-arm schedules an idle timer under this store. */
  predicate ArmsIdleTimer(s: AuthStore.Store) {
    AuthStore.IsAuthenticated(s) && !StaysSignedIn(s)
  }

  /** The phase a re-arm leads to, for a signed-in user. */
  function ArmTarget(s: AuthStore.Store, env: Option<int>): Phase {
    if ArmsIdleTimer(s) then Armed(IdleDelayMs(GetInactivityTimeout(s, env))) else Idle
  }

  /** `resetInactivityTimer`: cancel all three timers, hide the warning, reset the
      count to 60, then arm a fresh idle timer unless unauthenticated or signed in
      for good. */
  function Reset(a: Auth, env: Option<int>): (r: Auth)
    ensures r.user == a.user && r.store == a.store
    ensures !r.showWarning && r.countdown == WarningSeconds
    ensures r.timers.warning.None? && r.timers.countdown.None?
    ensures r.timers.idle.Some? <==> AuthStore.IsAuthenticated(a.store) && a.store.staySignedIn != Some("true")
    ensures r.timers.idle.Some? ==>
      r.timers.idle.value == GetInactivityTimeout(a.store, env) * 60 * 1000
    ensures Wf(r)
  {
    var cleared := a.(showWarning := false, countdown := WarningSeconds, timers := NoTimers);
    if !AuthStore.IsAuthenticated(a.store) || StaysSignedIn(a.store) then cleared
    else cleared.(timers := NoTimers.(idle := Some(IdleDelayMs(GetInactivityTimeout(a.store, env)))))
  }

  /** The context's `logout`: clear the store, drop the user, hide the warning. The
      timers die with the listener effect's cleanup and the page navigation. */
  function SignOut(a: Auth): (r: Auth)
    ensures r.user.None? && !r.showWarning && r.timers == NoTimers
    ensures r.store == AuthStore.Empty && !AuthStore.IsAuthenticated(r.store)
    ensures r.countdown == a.countdown
    ensures Wf(r) && PhaseOf(r) == LoggedOut
  {
    a.(store := AuthStore.Logout(a.store), user := None, showWarning := false, timers := NoTimers)
  }

  /** `handleUserActivity`, reached only while a user is signed in (the listeners
      are registered only then): stop a visible countdown, then re-arm. */
  function OnActivity(a: Auth, env: Option<int>): (r: Auth)
    ensures a.user.None? ==> r == a
    ensures a.user.Some? ==> r == Reset(a, env)
  {
    if a.user.None? then a
    else
      var quiet := if a.showWarning then a.(showWarning := false, timers := a.timers.(countdown := None)) else a;
      Reset(quiet, env)
  }

  /** The idle timer's callback: show the warning and start counting down from 60.
      A timer that was cleared never fires. */
  function OnIdleFired(a: Auth): (r: Auth)
    ensures a.timers.idle.None? ==> r == a
    ensures a.timers.idle.Some? ==>
      && r.showWarning && r.countdown == WarningSeconds
      && r.timers.countdown == Some(WarningSeconds) && r.timers.idle.None?
      && r.user == a.user && r.store == a.store
    ensures Wf(a) ==> Wf(r)
  {
    if a.timers.idle.None? then a
    else a.(showWarning := true, countdown := WarningSeconds,
            timers := a.timers.(idle := None, countdown := Some(WarningSeconds)))
  }

  /** The countdown interval's callback: decrement by one; at zero or below stop
      the interval and log out. */
  function OnTick(a: Auth): (r: Auth)
    ensures a.timers.countdown.None? ==> r == a
    ensures a.timers.countdown.Some? && a.timers.countdown.value > 1 ==>
      && r.timers.countdown == Some(a.timers.countdown.value - 1)
      && r.countdown == a.timers.countdown.value - 1
      && r.showWarning == a.showWarning && r.user == a.user && r.store == a.store
      && r.timers.idle == a.timers.idle
    ensures a.timers.countdown.Some? && a.timers.countdown.value <= 1 ==>
      r == SignOut(a.(countdown := a.timers.countdown.value - 1))
    ensures Wf(a) ==> Wf(r)
  {
    match a.timers.countdown
    case None => a
    case Some(count) =>
      var next := count - 1;
      if next <= 0 then SignOut(a.(countdown := next, timers := a.timers.(countdown := None)))
      else a.(countdown := next, timers := a.timers.(countdown := Some(next)))
  }

  /** The modal's "Stay Logged In" button, present only while the warning shows:
      hide it, stop the countdown, re-arm. */
  function StayLoggedIn(a: Auth, env: Option<int>): (r: Auth)
    ensures !a.showWarning ==> r == a
    ensures a.showWarning ==> r == Reset(a, env)
  {
    if !a.showWarning then a
    else Reset(a.(showWarning := false, timers := a.timers.(countdown := None)), env)
  }

  datatype SignInOutcome = SignInOutcome(sent: AuthStore.LoginBody, result: Result<AuthStore.User, string>, state: Auth)

  /** The context's `login`: ask for a long-lived token when staying signed in,
      then record the user and the flag; the new user re-arms the scheduler. A
      failed login rethrows and changes nothing. */
  function SignIn(a: Auth, username: string, password: string, staySignedIn: bool,
                  response: Response<AuthStore.User>, env: Option<int>): (r: SignInOutcome)
    ensures r.sent.expiresInMins == (if staySignedIn then StaySignedInExpiryMins else SessionExpiryMins)
    ensures response.Fail? ==> r.state == a && r.result.Failure?
    ensures response.Fail? ==> r.result == Failure(AuthStore.ErrorMessage(response.message, AuthStore.LoginFailed))
    ensures response.Ok? ==>
      && r.result == Success(response.body)
      && r.state.user == Some(response.body)
      && (staySignedIn ==> r.state.store.staySignedIn == Some("true"))
      && (!staySignedIn ==> r.state.store.staySignedIn.None?)
      && r.state.store.token == Some(response.body.token)
      && r.state.store.inactivityTimeout == a.store.inactivityTimeout
      && (r.state.timers.idle.Some? <==> !staySignedIn && response.body.token != "")
      && !r.state.showWarning
    ensures response.Ok? ==>
      PhaseOf(r.state) == ArmTarget(r.state.store, env) && r.state.timers.countdown.None?
    ensures Wf(a) ==> Wf(r.state)
  {
    var expiry := if staySignedIn then StaySignedInExpiryMins else SessionExpiryMins;
    var attempt := AuthStore.Login(a.store, AuthStore.Credentials(username, password, Some(expiry)), response);
    match attempt.result
    case Failure(e) => SignInOutcome(attempt.sent, Failure(e), a)
    case Success(user) =>
      var store := attempt.store.(staySignedIn := if staySignedIn then Some("true") else None);
      SignInOutcome(attempt.sent, Success(user), Reset(a.(user := Some(user), store := store), env))
  }

  /** `updateInactivityTimeout`: persist the minutes as given, with no range check,
      and re-arm at once using them. */
  function UpdateInactivityTimeout(a: Auth, minutes: int, env: Option<int>): (r: Auth)
    ensures r.store == a.store.(inactivityTimeout := Some(minutes))
    ensures forall env' :: GetInactivityTimeout(r.store, env') == minutes
    ensures r.user == a.user && !r.showWarning && r.timers.countdown.None?
    ensures r.timers.idle.Some? <==> ArmsIdleTimer(a.store)
    ensures r.timers.idle.Some? ==> r.timers.idle.value == minutes * 60 * 1000
  {
    Reset(a.(store := a.store.(inactivityTimeout := Some(minutes))), env)
  }

  /** The profile page's save: an out-of-range timeout changes nothing; otherwise
      the timeout goes through `updateInactivityTimeout`, which re-arms under the
      flag as it was, and only then is the flag written ("true") or removed. */
  function SaveSettings(a: Auth, minutes: int, staySignedIn: bool, env: Option<int>): (r: Auth)
    ensures !InRange(minutes) ==> r == a
    ensures InRange(minutes) ==>
      && r.store.inactivityTimeout == Some(minutes)
      && (staySignedIn ==> r.store.staySignedIn == Some("true"))
      && (!staySignedIn ==> r.store.staySignedIn.None?)
      && r.store.token == a.store.token
      && r.store.refreshToken == a.store.refreshToken
      && r.store.user == a.store.user
      && r.user == a.user && !r.showWarning
      && r.timers == UpdateInactivityTimeout(a, minutes, env).timers
    ensures InRange(minutes) ==> (StaysSignedIn(r.store) <==> staySignedIn)
    ensures Wf(a) ==> Wf(r)
  {
    if minutes < MinTimeoutMinutes || minutes > MaxTimeoutMinutes then a
    else
      var updated := UpdateInactivityTimeout(a, minutes, env);
      updated.(store := updated.store.(staySignedIn := if staySignedIn then Some("true") else None))
  }

  /** `initAuth`: with a cached user and a token, restore the cached user and try to
      refresh it from the profile endpoint, keeping the cache when that fails; the
      restored user arms the scheduler. Otherwise nothing happens. */
  function InitAuth(a: Auth, response: Response<AuthStore.User>, env: Option<int>): (r: Auth)
    ensures !(a.store.user.Some? && AuthStore.IsAuthenticated(a.store)) ==> r == a
    ensures a.store.user.Some? && AuthStore.IsAuthenticated(a.store) ==>
      && (response.Ok? ==> r.user == Some(response.body) && r.store == a.store.(user := Some(response.body)))
      && (response.Fail? ==> r.user == a.store.user && r.store == a.store)
      && (r.timers.idle.Some? <==> !StaysSignedIn(a.store))
      && !r.showWarning
    ensures a.store.user.Some? && AuthStore.IsAuthenticated(a.store) ==>
      PhaseOf(r) == ArmTarget(a.store, env) && r.timers.countdown.None?
  {
    if a.store.user.Some? && AuthStore.IsAuthenticated(a.store) then
      var cached := a.store.user.value;
      match AuthStore.GetCurrentUser(a.store, response).user
      case Some(current) => Reset(a.(user := Some(current), store := a.store.(user := Some(current))), env)
      case None => Reset(a.(user := Some(cached)), env)
    else a
  }

  /** One event, under the intended semantics of the source. */
  function Step(a: Auth, e: Event, env: Option<int>): (r: Auth)
    ensures Wf(a) ==> Wf(r)
  {
    match e
    case Activity => OnActivity(a, env)
    case IdleFired => OnIdleFired(a)
    case Tick => OnTick(a)
    case Extend => StayLoggedIn(a, env)
    case Logout => SignOut(a)
    case Login(username, password, stay, response) => SignIn(a, username, password, stay, response, env).state
    case UpdateTimeout(minutes) => UpdateInactivityTimeout(a, minutes, env)
    case Save(minutes, stay) => SaveSettings(a, minutes, stay, env)
    case Restore(response) => InitAuth(a, response, env)
  }

  /** A sequence of events, in order. */
  function Run(a: Auth, es: seq<Event>, env: Option<int>): (r: Auth)
    ensures Wf(a) ==> Wf(r)
    decreases |es|
  {
    if es == [] then a else Run(Step(a, es[0], env), es[1..], env)
  }

  /** `n` copies of one event. */
  function Repeat(e: Event, n: nat): (es: seq<Event>)
    ensures |es| == n && forall i :: 0 <= i < n ==> es[i] == e
  {
    if n == 0 then [] else [e] + Repeat(e, n - 1)
  }

  /** The phase machine stated over phases alone; `rearm` is what a re-arm leads to
      under the current policy. */
  function NextPhase(p: Phase, e: Event, rearm: Phase): Phase {
    match e
    case Activity => rearm
    case IdleFired => if p.Armed? then Warning(WarningSeconds) else p
    case Tick =>
      if !p.Warning? then p
      else if p.count <= 1 then LoggedOut
      else Warning(p.count - 1)
    case Extend => if p.Warning? then rearm else p
    case Logout => LoggedOut
    case _ => p
  }
}

=== FILE: scheduler_proofs.dfy ===
/** Properties of the inactivity scheduler that span several events. */
module SchedulerProofs {
  import opened Wrappers
  import AuthStore
  import opened Scheduler

  /** The provider starts logged out and within the timer discipline, so every
      run from it keeps the discipline. */
  lemma MountWf(s: AuthStore.Store, es: seq<Event>, env: Option<int>)
    ensures Wf(Mount(s)) && PhaseOf(Mount(s)) == LoggedOut
    ensures Wf(Run(Mount(s), es, env))
  {
  }

  /** Running `xs` then `ys` is running their concatenation. */
  lemma {:induction false} RunAppend(a: Auth, xs: seq<Event>, ys: seq<Event>, env: Option<int>)
    ensures Run(a, xs + ys, env) == Run(Run(a, xs, env), ys, env)
    decreases |xs|
  {
    if xs == [] {
      assert xs + ys == ys;
    } else {
      assert (xs + ys)[0] == xs[0];
      assert (xs + ys)[1..] == xs[1..] + ys;
      RunAppend(Step(a, xs[0], env), xs[1..], ys, env);
    }
  }

  /** While fewer ticks than the count arrive, each takes exactly one second off
      the warning and nothing else changes. */
  lemma {:induction false} CountdownRuns(a: Auth, k: nat, env: Option<int>)
    requires Wf(a) && a.timers.countdown.Some? && k < a.timers.countdown.value
    ensures Run(a, Repeat(Tick, k), env)
         == a.(countdown := a.timers.countdown.value - k,
               timers := a.timers.(countdown := Some(a.timers.countdown.value - k)))
    decreases k
  {
    var c := a.timers.countdown.value;
    if k == 0 {
      assert Repeat(Tick, 0) == [];
    } else {
      var es := Repeat(Tick, k);
      assert es[0] == Tick && es[1..] == Repeat(Tick, k - 1);
      var next := OnTick(a);
      assert next == a.(countdown := c - 1, timers := a.timers.(countdown := Some(c - 1)));
      CountdownRuns(next, k - 1, env);
    }
  }

  /** A countdown showing `c` ends in a logout after exactly `c` ticks. */
  lemma {:induction false} CountdownExpires(a: Auth, env: Option<int>)
    requires Wf(a) && a.timers.countdown.Some?
    ensures Run(a, Repeat(Tick, a.timers.countdown.value), env) == SignOut(a.(countdown := 0))
    decreases a.timers.countdown.value
  {
    var c := a.timers.countdown.value;
    var es := Repeat(Tick, c);
    assert es[0] == Tick && es[1..] == Repeat(Tick, c - 1);
    if c == 1 {
      assert es[1..] == [];
    } else {
      var next := OnTick(a);
      assert next == a.(countdown := c - 1, timers := a.timers.(countdown := Some(c - 1)));
      CountdownExpires(next, env);
    }
  }

  /** Once the idle timer fires, the warning appears at 60; 59 quiet ticks later it
      still shows 1 second for the same user, and the 60th tick logs out and
      empties the store. */
  lemma AutoLogoutAfterSixtyTicks(a: Auth, env: Option<int>)
    requires Wf(a) && a.timers.idle.Some?
    ensures PhaseOf(Step(a, IdleFired, env)) == Warning(WarningSeconds)
    ensures var w := Run(a, [IdleFired] + Repeat(Tick, WarningSeconds - 1), env);
      w.showWarning && w.countdown == 1 && PhaseOf(w) == Warning(1) && w.user == a.user && w.store == a.store
    ensures var o := Run(a, [IdleFired] + Repeat(Tick, WarningSeconds), env);
      o.user.None? && !o.showWarning && o.store == AuthStore.Empty && PhaseOf(o) == LoggedOut
  {
    var fired := OnIdleFired(a);
    assert [IdleFired][1..] == [];
    assert Run(a, [IdleFired], env) == fired;
    RunAppend(a, [IdleFired], Repeat(Tick, WarningSeconds - 1), env);
    CountdownRuns(fired, WarningSeconds - 1, env);
    RunAppend(a, [IdleFired], Repeat(Tick, WarningSeconds), env);
    CountdownExpires(fired, env);
  }

  /** Activity re-arms from scratch: the result depends only on the user and the
      store, never on a countdown in progress, and lands on the full-length timer
      the current policy asks for. "Stay Logged In" during a warning does the same. */
  lemma ActivityRestartsFromScratch(a: Auth, b: Auth, env: Option<int>)
    requires a.user.Some? && a.user == b.user && a.store == b.store
    ensures Step(a, Activity, env) == Step(b, Activity, env)
    ensures var r := Step(a, Activity, env);
      !r.showWarning && r.countdown == WarningSeconds && PhaseOf(r) == ArmTarget(a.store, env)
    ensures a.showWarning ==> Step(a, Extend, env) == Step(a, Activity, env)
  {
  }

  /** Re-arming twice is re-arming once. */
  lemma ResetIdempotent(a: Auth, env: Option<int>)
    ensures Reset(Reset(a, env), env) == Reset(a, env)
  {
  }

  /** Logging out from any state, once or twice, reaches the same logged-out state. */
  lemma LogoutIdempotent(a: Auth, env: Option<int>)
    ensures Step(Step(a, Logout, env), Logout, env) == Step(a, Logout, env)
    ensures PhaseOf(Step(a, Logout, env)) == LoggedOut
  {
  }

  /** For a signed-in user, the timer events move the phase exactly as the phase
      machine `NextPhase` says. */
  lemma PhaseRefinement(a: Auth, e: Event, env: Option<int>)
    requires Wf(a) && a.user.Some?
    requires e.Activity? || e.IdleFired? || e.Tick? || e.Extend? || e.Logout?
    ensures PhaseOf(Step(a, e, env)) == NextPhase(PhaseOf(a), e, ArmTarget(a.store, env))
  {
  }

  /** No timer is live, no warning shows, and no re-arm would start one. */
  predicate Quiet(a: Auth) {
    a.timers == NoTimers && !a.showWarning && !ArmsIdleTimer(a.store)
  }

  /** The events that can make a quiet scheduler arm again: a login, or an
      accepted profile save with "Stay Signed In" unticked, which removes the flag. */
  predicate Wakes(e: Event) {
    e.Login? || (e.Save? && !e.staySignedIn && InRange(e.minutes))
  }

  /** Only a login or a save that clears the flag can wake a quiet scheduler. */
  lemma QuietStep(a: Auth, e: Event, env: Option<int>)
    requires Quiet(a) && !Wakes(e)
    ensures Quiet(Step(a, e, env))
  {
    match e
    case Restore(response) =>
      var r := InitAuth(a, response, env);
      assert ArmsIdleTimer(r.store) == ArmsIdleTimer(a.store);
    case _ =>
  }

  /** Whatever events follow, a quiet scheduler never shows a warning until a
      login or a save that clears the flag. */
  lemma {:induction false} NoWarningWithoutLogin(a: Auth, es: seq<Event>, env: Option<int>)
    requires Quiet(a)
    requires forall i :: 0 <= i < |es| ==> !Wakes(es[i])
    ensures Quiet(Run(a, es, env)) && !Run(a, es, env).showWarning
    decreases |es|
  {
    if es != [] {
      QuietStep(a, es[0], env);
      NoWarningWithoutLogin(Step(a, es[0], env), es[1..], env);
    }
  }

  /** After a successful "stay signed in" login no warning ever appears until the
      next login or a profile save with the box unticked. */
  lemma StaySignedInNeverWarns(a: Auth, username: string, password: string,
                               user: AuthStore.User, es: seq<Event>, env: Option<int>)
    requires forall i :: 0 <= i < |es| ==> !Wakes(es[i])
    ensures var s := SignIn(a, username, password, true, Ok(user), env).state;
      s.user == Some(user) && !Run(s, es, env).showWarning
  {
    var s := SignIn(a, username, password, true, Ok(user), env).state;
    assert Quiet(s);
    NoWarningWithoutLogin(s, es, env);
  }

  /** The exclusion above is needed: after the same login, a save with the box
      unticked removes the flag, so the next activity arms the idle timer and its
      firing shows the warning to the same user, with no second login. */
  lemma UntickedSaveWakes(a: Auth, username: string, password: string,
                          user: AuthStore.User, minutes: int, env: Option<int>)
    requires user.token != "" && InRange(minutes)
    ensures var s := SignIn(a, username, password, true, Ok(user), env).state;
      var saved := Step(s, Save(minutes, false), env);
      && saved.timers == NoTimers && !StaysSignedIn(saved.store)
      && var w := Run(saved, [Activity, IdleFired], env);
        w.showWarning && w.user == Some(user) && PhaseOf(w) == Warning(WarningSeconds)
  {
    var s := SignIn(a, username, password, true, Ok(user), env).state;
    var saved := Step(s, Save(minutes, false), env);
    var es := [Activity, IdleFired];
    assert es[0] == Activity && es[1..] == [IdleFired];
    assert es[1..][0] == IdleFired && es[1..][1..] == [];
    var armed := Step(saved, Activity, env);
    assert armed.timers.idle.Some?;
  }
}

=== FILE: text.dfy ===
/** JavaScript's `String.prototype.trim`, used by the todo screen to refuse blank text. */
module Text {

  /** The characters `trim` removes: the ECMAScript WhiteSpace and LineTerminator
      code points (tab, line and page breaks, space, no-break space, byte order
      mark, and the Unicode space separators). */
  predicate IsWhitespace(c: char) {
    var n := c as int;
    || n == 0x09 || n == 0x0A || n == 0x0B || n == 0x0C || n == 0x0D
    || n == 0x20 || n == 0xA0 || n == 0x1680
    || (0x2000 <= n <= 0x200A)
    || n == 0x2028 || n == 0x2029 || n == 0x202F || n == 0x205F
    || n == 0x3000 || n == 0xFEFF
  }

  predicate AllWhitespace(s: string) {
    forall i :: 0 <= i < |s| ==> IsWhitespace(s[i])
  }

  /** Drops leading whitespace: the result is a suffix of `s` that does not start
      with whitespace, and everything dropped was whitespace. */
  function TrimStart(s: string): (r: string)
    ensures |r| <= |s| && r == s[|s| - |r|..]
    ensures r == [] || !IsWhitespace(r[0])
    ensures AllWhitespace(s[..|s| - |r|])
    decreases |s|
  {
    if |s| > 0 && IsWhitespace(s[0]) then
      var r := TrimStart(s[1..]);
      assert s[..|s| - |r|] == [s[0]] + s[1..][..|s| - 1 - |r|];
      r
    else s
  }

  /** Drops trailing whitespace: the result is a prefix of `s` that does not end
      with whitespace, and everything dropped was whitespace. */
  function TrimEnd(s: string): (r: string)
    ensures |r| <= |s| && r == s[..|r|]
    ensures r == [] || !IsWhitespace(r[|r| - 1])
    ensures AllWhitespace(s[|r|..])
    decreases |s|
  {
    if |s| > 0 && IsWhitespace(s[|s| - 1]) then
      var r := TrimEnd(s[..|s| - 1]);
      assert s[|r|..] == s[..|s| - 1][|r|..] + [s[|s| - 1]];
      r
    else s
  }

  function Trim(s: string): string {
    TrimEnd(TrimStart(s))
  }

  /** `!s.trim()`: the trimmed text is empty. */
  predicate IsBlank(s: string) {
    Trim(s) == ""
  }

  /** Text is blank exactly when every character of it is whitespace. */
  lemma BlankIffAllWhitespace(s: string)
    ensures IsBlank(s) <==> AllWhitespace(s)
  {
    var t := TrimStart(s);
    if IsBlank(s) {
      assert t[0..] == t;
      assert s[..|s|] == s;
    }
  }
}

=== FILE: todo_list.dfy ===
/** The todo list as the dashboard holds it, and the pure list updates and views
    the dashboard's handlers apply to it. */
module TodoList {

  datatype Todo = Todo(id: int, text: string, completed: bool, userId: int)

  /** The dashboard's filter tabs. */
  datatype Filter = All | Active | Completed

  /** Whether a tab shows a todo. */
  predicate Shows(f: Filter, t: Todo) {
    match f
    case All => true
    case Active => !t.completed
    case Completed => t.completed
  }

  /** `Array.prototype.filter`: the elements `keep` accepts, in their original order. */
  function Select(ts: seq<Todo>, keep: Todo -> bool): (r: seq<Todo>)
    ensures |r| <= |ts|
    ensures forall i :: 0 <= i < |r| ==> keep(r[i]) && r[i] in ts
    ensures forall t :: t in ts && keep(t) ==> t in r
    decreases |ts|
  {
    if ts == [] then []
    else (if keep(ts[0]) then [ts[0]] else []) + Select(ts[1..], keep)
  }

  /** Selecting from a concatenation concatenates the selections, so `Select`
      keeps the relative order of what it keeps. */
  lemma {:induction false} SelectAppend(xs: seq<Todo>, ys: seq<Todo>, keep: Todo -> bool)
    ensures Select(xs + ys, keep) == Select(xs, keep) + Select(ys, keep)
    decreases |xs|
  {
    if xs == [] {
      assert xs + ys == ys;
    } else {
      assert (xs + ys)[0] == xs[0];
      assert (xs + ys)[1..] == xs[1..] + ys;
      SelectAppend(xs[1..], ys, keep);
    }
  }

  /** Selecting with a predicate every element meets keeps the whole list. */
  lemma {:induction false} SelectKeepsAll(ts: seq<Todo>, keep: Todo -> bool)
    requires forall i :: 0 <= i < |ts| ==> keep(ts[i])
    ensures Select(ts, keep) == ts
    decreases |ts|
  {
    if ts != [] {
      SelectKeepsAll(ts[1..], keep);
    }
  }

  /** Selecting by a predicate and by its negation splits the list between them. */
  lemma {:induction false} SelectSplits(ts: seq<Todo>, keep: Todo -> bool)
    ensures |Select(ts, keep)| + |Select(ts, t => !keep(t))| == |ts|
    decreases |ts|
  {
    if ts != [] {
      SelectSplits(ts[1..], keep);
    }
  }

  /** `filteredTodos`: the todos the current tab shows. */
  function FilterTodos(ts: seq<Todo>, f: Filter): (r: seq<Todo>)
    ensures forall i :: 0 <= i < |r| ==> Shows(f, r[i]) && r[i] in ts
    ensures forall t :: t in ts && Shows(f, t) ==> t in r
  {
    Select(ts, t => Shows(f, t))
  }

  /** The "all" tab shows the list unchanged; "active" and "completed" show exactly
      the open and the done todos, in list order, and between them every todo. */
  lemma FilterTabs(ts: seq<Todo>, xs: seq<Todo>)
    ensures FilterTodos(ts, All) == ts
    ensures forall i :: 0 <= i < |FilterTodos(ts, Active)| ==> !FilterTodos(ts, Active)[i].completed
    ensures forall i :: 0 <= i < |FilterTodos(ts, Completed)| ==> FilterTodos(ts, Completed)[i].completed
    ensures |FilterTodos(ts, Active)| + |FilterTodos(ts, Completed)| == |ts|
    ensures forall f :: FilterTodos(ts + xs, f) == FilterTodos(ts, f) + FilterTodos(xs, f)
  {
    SelectKeepsAll(ts, t => Shows(All, t));
    var completed := (t: Todo) => Shows(Completed, t);
    SelectSplits(ts, completed);
    assert Select(ts, t => !completed(t)) == FilterTodos(ts, Active) by {
      SelectSame(ts, t => !completed(t), t => Shows(Active, t));
    }
    forall f: Filter
      ensures FilterTodos(ts + xs, f) == FilterTodos(ts, f) + FilterTodos(xs, f)
    {
      SelectAppend(ts, xs, t => Shows(f, t));
    }
  }

  /** Two predicates that agree on every todo select the same elements. */
  lemma {:induction false} SelectSame(ts: seq<Todo>, p: Todo -> bool, q: Todo -> bool)
    requires forall t :: p(t) == q(t)
    ensures Select(ts, p) == Select(ts, q)
    decreases |ts|
  {
    if ts != [] {
      SelectSame(ts[1..], p, q);
    }
  }

  datatype Stats = Stats(total: int, active: int, completed: int)

  /** The dashboard's counters; every todo is either open or done. */
  function ComputeStats(ts: seq<Todo>): (r: Stats)
    ensures r.total == |ts| == r.active + r.completed
    ensures r.active == |FilterTodos(ts, Active)| && r.completed == |FilterTodos(ts, Completed)|
  {
    FilterTabs(ts, []);
    Stats(|ts|, |FilterTodos(ts, Active)|, |FilterTodos(ts, Completed)|)
  }

  /** `todos.map(t => t.id === id ? updated : t)`: every todo with the id becomes
      `updated`; every other one and the length are unchanged. */
  function ReplaceById(ts: seq<Todo>, id: int, updated: Todo): (r: seq<Todo>)
    ensures |r| == |ts|
    ensures forall i :: 0 <= i < |ts| ==> r[i] == (if ts[i].id == id then updated else ts[i])
    decreases |ts|
  {
    if ts == [] then []
    else [if ts[0].id == id then updated else ts[0]] + ReplaceById(ts[1..], id, updated)
  }

  /** The todos carrying `id`, in list order. */
  function WithId(ts: seq<Todo>, id: int): (r: seq<Todo>)
    ensures forall i :: 0 <= i < |r| ==> r[i].id == id && r[i] in ts
    ensures forall t :: t in ts && t.id == id ==> t in r
  {
    Select(ts, (t: Todo) => t.id == id)
  }

  /** `todos.filter(t => t.id !== id)`: no todo with the id remains, every other
      todo stays, in order. */
  function RemoveById(ts: seq<Todo>, id: int): (r: seq<Todo>)
    ensures forall i :: 0 <= i < |r| ==> r[i].id != id && r[i] in ts
    ensures forall t :: t in ts && t.id != id ==> t in r
    ensures |r| == |ts| - |WithId(ts, id)|
  {
    var keep := (t: Todo) => t.id != id;
    SelectSplits(ts, keep);
    SelectSame(ts, t => !keep(t), (t: Todo) => t.id == id);
    Select(ts, keep)
  }

  /** Removal distributes over concatenation, so the kept todos stay in their
      original relative order. */
  lemma RemoveByIdKeepsOrder(xs: seq<Todo>, ys: seq<Todo>, id: int)
    ensures RemoveById(xs + ys, id) == RemoveById(xs, id) + RemoveById(ys, id)
  {
    SelectAppend(xs, ys, (t: Todo) => t.id != id);
  }

  /** Removing an absent id changes nothing, removing a present one shortens the
      list, and removing twice is removing once. */
  lemma RemoveByIdShrinks(ts: seq<Todo>, id: int)
    ensures (forall i :: 0 <= i < |ts| ==> ts[i].id != id) ==> RemoveById(ts, id) == ts
    ensures (exists i :: 0 <= i < |ts| && ts[i].id == id) ==> |RemoveById(ts, id)| < |ts|
    ensures RemoveById(RemoveById(ts, id), id) == RemoveById(ts, id)
  {
    var keep := (t: Todo) => t.id != id;
    if forall i :: 0 <= i < |ts| ==> ts[i].id != id {
      SelectKeepsAll(ts, keep);
    }
    SelectKeepsAll(RemoveById(ts, id), keep);
    SelectSplits(ts, keep);
    if exists i :: 0 <= i < |ts| && ts[i].id == id {
      var i :| 0 <= i < |ts| && ts[i].id == id;
      assert ts[i] in ts && !keep(ts[i]);
      var gone := Select(ts, t => !keep(t));
      assert ts[i] in gone;
    }
  }
}

=== FILE: wrappers.dfy ===
/** Failure-carrying datatypes shared by the rest of the model. */
module Wrappers {

  /** A value that may be absent: a missing cookie or storage key, a null user. */
  datatype Option<+T> = None | Some(value: T) {

    /** The wrapped value, or `default` when there is none. */
    function GetOr(default: T): T {
      match this
      case Some(v) => v
      case None => default
    }
  }

  /** The outcome of a call that either returns a value or throws an error message. */
  datatype Result<+T, +E> = Success(value: T) | Failure(error: E)

  /** What a remote HTTP call came back with: the response body, or a failure carrying
      the server's `message` field ("" when the server sent none or was unreachable). */
  datatype Response<+T> = Ok(body: T) | Fail(message: string)
}
